=== FILE: README.md ===
# Product store and user validators of the pyclassstruct sample scripts

This project models two sample scripts in Dafny:

- **The in-memory product store** of `tests/sample_scripts/product_manager.py`.
  It is one process-wide dict, `product_cache`, that maps a product id to a
  record dict. The functions of the script create, look up, update and delete
  its entries. Here the dict is the `cache` field of the class
  `ProductManager.ProductCache`, of type `map<string, Record>`. The functions
  that change it are methods with `modifies this`, and each method states the
  whole new map. The read-only functions are class functions that read `this`.
  `init_product` stores the dict it returns, so `create_product`'s category
  assignment and `update_product`'s `dict.update` change the stored record
  itself. The model writes each of these as an in-place update of that one
  map entry. The invariant `Valid()` holds that every stored record still has
  the four keys `init_product` gives it, because no operation removes a key.
- **The user-data validators** of `tests/sample_scripts/user_management.py`.
  These are `validate_user_data`, `validate_email`, `create_user`, and the
  records the mock `save_to_database` and `update_in_database` return. They
  are pure functions in module `UserManagement`. The email regular expression
  is written as a recursive matcher. It follows the pattern piece by piece:
  a local run, then '@', a domain run, '.', and a top-level part. A lemma
  proves that it accepts exactly the strings of the form `L@D.T`. Here L is a
  non-empty run over letters, digits and `._%+-`, D is a non-empty run over
  letters, digits and `.-`, and T is two or more ASCII letters. Python's `$`
  also matches just before one final newline, so `"a@b.cc\n"` is accepted as
  well. The model keeps that behaviour.

`user_management.py` contains unresolved merge-conflict markers at lines 1,
110 and 219. Its two halves are identical, so one copy is modelled, and the
line numbers below cite the first copy.

Python values are the datatype `PyValues.Value`: None, an integer or a
string. A record is a `map<string, Value>`. An exception is
`Raised(error)` of the datatype `PyValues.Outcome`. Python truthiness (`if
category:`, `if product:`) is the pair of predicates `Truthy` and `Present`.

## Model

| member | source | states |
|---|---|---|
| `ProductManager.ProductCache.constructor` | tests/sample_scripts/product_manager.py:9 | the store starts as an empty dict and satisfies the record invariant |
| `ProductManager.ProductCache.InitProduct` | tests/sample_scripts/product_manager.py:13-22 | the id maps to a record with exactly the keys id, name, price and currency (currency "USD"); an earlier entry under that id is replaced; every other id keeps its record; the count rises by one exactly when the id was new |
| `ProductManager.ProductCache.CreateProduct` | tests/sample_scripts/product_manager.py:25-31 | the record stored under the generated id is the one returned; it gets a category key exactly when the category is truthy; the other ids are untouched |
| `ProductManager.ProductCache.GetProduct` | tests/sample_scripts/product_manager.py:34-36 | the lookup gives the stored record exactly when the id is a key, and None otherwise |
| `ProductManager.ProductCache.UpdateProduct` | tests/sample_scripts/product_manager.py:39-44 | a keyword named product_id raises TypeError (it collides with the positional parameter) and changes nothing; otherwise an unknown id gives None and no change; for a stored id, the record's keys become its old keys plus the kwargs' keys, the kwargs' values win, its other values stay, and the returned record is the stored one; other products are untouched |
| `ProductManager.ProductCache.DeleteProduct` | tests/sample_scripts/product_manager.py:47-52 | the result is True exactly when the id was stored; the new store is the old one without that id; the count drops by one exactly when True |
| `ProductManager.DeleteTwice` | tests/sample_scripts/product_manager.py:47-52 | deleting the same id twice reports whether it was stored, then False |
| `ProductManager.ProductCache.CompareProducts` | tests/sample_scripts/product_manager.py:71-77 | 0 when either id is missing; the first price minus the second when both products exist with integer prices; an error only when both exist |
| `ProductManager.CompareAntisymmetric` | tests/sample_scripts/product_manager.py:71-77 | swapping the two ids negates the result |
| `ProductManager.ValidStoreRaisesNoKeyError` | tests/sample_scripts/product_manager.py:71-92 | in a store that keeps the record invariant, compare_products never raises KeyError and product_hash never raises |
| `ProductManager.ProductCache.ProductsEqual` | tests/sample_scripts/product_manager.py:80-84 | true when both ids are missing; false when exactly one is stored; for two stored ids, true exactly when the records are equal |
| `ProductManager.ProductCache.ProductHash` | tests/sample_scripts/product_manager.py:87-92 | 0 for an unknown id; otherwise the hash of the record's id and name fields |
| `ProductManager.HashIgnoresPrice` | tests/sample_scripts/product_manager.py:87-92 | two stored products that agree on id and name hash alike, whatever their price, currency or category |
| `ProductManager.ProductCache.CountProducts` | tests/sample_scripts/product_manager.py:100-102 | the number of ids in the store; zero exactly for the empty store |
| `ProductManager.ProductCache.ContainsProduct` | tests/sample_scripts/product_manager.py:105-107 | true exactly when get_product finds a record |
| `ProductManager.ProductCache.GetProductItem` | tests/sample_scripts/product_manager.py:110-115 | the stored value under the key, and None when the product or the key is missing |
| `ProductManager.ProductCache.SetProductItem` | tests/sample_scripts/product_manager.py:118-122 | an unknown id changes nothing; otherwise only that key of that record is set; get_product_item then returns the new value |
| `ProductManager.ValidateProductData` | tests/sample_scripts/product_manager.py:142-148 | True exactly when the name has at least 2 characters and the price is not negative; the name error is reported before the price error; it involves no store |
| `ProductManager.ProductCache.CallProduct` | tests/sample_scripts/product_manager.py:163-173 | an unknown id or action gives None and no change; 'delete' deletes the id found in the record's 'id' field, which is the product itself when that field still holds its key; 'info' and 'price' change nothing; 'info' follows the record's 'id' field to a stored record and fails exactly when str() fails on that record's name or price; 'price' succeeds exactly when the stored price is an integer of magnitude below 2^1024 - 2^970 and otherwise returns the exception format_price raises |
| `ProductManager.FormatPriceFailure` | tests/sample_scripts/product_manager.py:132-139 | formatting a price with two decimals succeeds exactly for an integer of magnitude below 2^1024 - 2^970; a larger integer raises OverflowError (its conversion to a double rounds to 2^1024), a string raises ValueError and None raises TypeError |
| `ProductManager.StrFailure` | tests/sample_scripts/product_manager.py:59 | str() of a value fails exactly for an integer of magnitude 10^4300 or more, that is, with more than 4300 decimal digits, raising ValueError |
| `ProductManager.ToStringFailure` | tests/sample_scripts/product_manager.py:55-60 | product_to_string on a stored record fails exactly when str() fails on its name or its price, and the name's error comes first |
| `ProductManager.RenderingLimits` | tests/sample_scripts/product_manager.py:132-139 | a price of magnitude 2^1024 - 2^970 - 1 formats and one of magnitude 2^1024 - 2^970 raises OverflowError, for both signs; str() accepts 10^4300 - 1 and rejects -10^4300 |
| `UserManagement.DomainRestSound` | tests/sample_scripts/user_management.py:97 | once the domain run has started, a match means a later '.' followed by letters only, with domain characters before it |
| `UserManagement.DomainRestComplete` | tests/sample_scripts/user_management.py:97 | conversely, such a '.' makes the rest of the domain match |
| `UserManagement.LocalRestSound` | tests/sample_scripts/user_management.py:97 | once the local run has started, a match means an '@', then a non-empty domain run, then '.' and two or more letters |
| `UserManagement.LocalRestComplete` | tests/sample_scripts/user_management.py:97 | conversely, such a split makes the rest of the string match |
| `UserManagement.FullMatchIsEmailForm` | tests/sample_scripts/user_management.py:97 | the pattern matches a whole string exactly when it has the form L@D.T |
| `UserManagement.ValidateEmail` | tests/sample_scripts/user_management.py:94-98 | validate_email, as the recursive matcher run from the start with `$` allowed at the end or before a final newline, accepts exactly L@D.T, optionally followed by one newline |
| `UserManagement.NoAtRejected` | tests/sample_scripts/user_management.py:97-98 | a string without '@' is rejected |
| `UserManagement.EmptyLocalPartRejected` | tests/sample_scripts/user_management.py:97-98 | a string that starts with '@' is rejected |
| `UserManagement.NoTopLevelRejected` | tests/sample_scripts/user_management.py:97-98 | a string that does not end in '.' and two or more letters (before an optional final newline) is rejected |
| `UserManagement.TrailingNewlineAccepted` | tests/sample_scripts/user_management.py:97-98 | "a@b.cc" is accepted, and so is "a@b.cc" followed by a newline |
| `UserManagement.ValidateUserData` | tests/sample_scripts/user_management.py:43-49 | success exactly when the username has at least 3 characters and the email is valid; a missing, empty or short username raises the username error whatever the email; on success the record has exactly the keys username and email, holding the inputs |
| `UserManagement.UsernameBoundary` | tests/sample_scripts/user_management.py:45-46 | a 3-character username passes the username check; 2 characters, the empty string and None do not |
| `UserManagement.SaveToDatabase` | tests/sample_scripts/user_management.py:66-70 | the result is the data with an id key added; the data's own values, its id included, win; the id is 1 only when the data has none |
| `UserManagement.UpdateInDatabase` | tests/sample_scripts/user_management.py:80-84 | the result is the data with id forced to the record id; the other keys keep the data's values |
| `UserManagement.CreateUser` | tests/sample_scripts/user_management.py:15-19 | invalid input raises the validation error and saves nothing; otherwise the saved record holds id 1, the username, the email and the hash of the password, not the password itself |

## Left out

- `tests/sample_scripts/file_handler.py` is not part of this model. It is filesystem I/O and JSON through library calls.
- `product_to_repr` and `iter_products` are left out. They are string formatting and dict iteration order. Of `product_to_string` and `format_price` only whether they raise is modelled (`ToStringFailure`, `FormatPriceFailure`), not the text or the other currencies of `format_price`. For the same reason, the `'info'` and `'price'` actions of `call_product` return the marker `Rendered` without the text when they succeed.
- The limits of `FormatPriceFailure` and `StrFailure` are those of CPython 3.12 with default settings. The 4300-digit limit on `str()` exists from Python 3.11 on and can be changed with `sys.set_int_max_str_digits`; older versions have no such limit, and the model does not cover a changed limit.
- `product_enter` and `product_exit` are left out because they only print and look up.
- `generate_product_id` (a uuid prefix) is the input parameter `productId` of `CreateProduct`.
- Python's built-in `hash` is the function parameter `hash` of `ProductHash`.
- SHA-256 in `hash_password` is the function parameter `hashPassword` of `CreateUser`.
- `connect_database`, `query_database`, `delete_from_database` and `get_user` are left out. They print and return fixed literals, so they store nothing.
- `delete_user` and `update_user` are left out. Each looks the user up through the mock `query_database`, which always returns a truthy literal, so their "not found" branches cannot be taken. Past that lookup, `delete_user` returns True from `delete_from_database`, and `update_user` returns the merge `{**kwargs, "id": user_id}`, which is `UpdateInDatabase`.
- `MAX_RETRIES` and `TIMEOUT` are never read, and `DATABASE_URL` only appears in the printed message of `connect_database`, which is left out. `format_date` and `generate_id` are left out too.
- Record values are None, integers and strings only. Floats and booleans are not modelled, so neither are Python's `True == 1` and `1 == 1.0` in dict equality.
- Records are values in the map, not shared objects. A record handed out earlier by `get_product` does not see later in-place updates in this model, although in Python it would.
- Product ids and usernames are strings and emails are strings. Calling `validate_email` with None (a TypeError in Python) is not modelled.

=== FILE: product_manager.dfy ===
/** The in-memory product store of tests/sample_scripts/product_manager.py:
    one process-wide dict from product id to a product record, and the
    functions that create, read, update and delete its entries. */
module ProductManager {
  import opened PyValues

  const DefaultCurrency: string := "USD"

  /** The keys every record gets when it is initialised; nothing in the
      store ever removes a key from a record. */
  const RequiredKeys: set<string> := {"id", "name", "price", "currency"}

  /** The record init_product builds for an id, a name and a price. */
  function NewRecord(productId: string, name: string, price: int): Record
  {
    map["id" := VStr(productId), "name" := VStr(name), "price" := VInt(price),
        "currency" := VStr(DefaultCurrency)]
  }

  /** What validate_product_data reports: the name check comes first, then
      the price check; the store is not involved. */
  function ValidateProductData(name: Option<string>, price: int): (r: Outcome<bool>)
    ensures r == Ok(true) <==> name.Some? && |name.value| >= 2 && price >= 0
    ensures r.Raised? ==> r.error.ValueError?
    ensures name == None || |name.value| < 2 ==>
              r == Raised(ValueError("Product name must be at least 2 characters"))
    ensures name.Some? && |name.value| >= 2 && price < 0 ==>
              r == Raised(ValueError("Price cannot be negative"))
  {
    if name == None || name.value == "" || |name.value| < 2 then
      Raised(ValueError("Product name must be at least 2 characters"))
    else if price < 0 then
      Raised(ValueError("Price cannot be negative"))
    else
      Ok(true)
  }

  /** Adding a category to a freshly initialised record keeps its other
      four entries. */
  lemma CategoryKeepsRequiredKeys(rec: Record, category: Value)
    requires rec.Keys == RequiredKeys
    ensures rec["category" := category].Keys == RequiredKeys + {"category"}
    ensures forall k :: k in RequiredKeys ==> rec["category" := category][k] == rec[k]
  {
  }

  /** Storing twice under one key keeps only the second value. */
  lemma OverwriteTwice<K, V>(m: map<K, V>, k: K, first: V, second: V)
    ensures m[k := first][k := second] == m[k := second]
  {
  }

  /** 2^1024 - 2^970: the midpoint between the largest double, 2^1024 - 2^971,
      and 2^1024. Python converts an int to the nearest double, ties to
      even, and raises OverflowError when that rounds to 2^1024 or beyond,
      which happens exactly for magnitudes from this bound up. */
  const FloatOverflowBound: int := 0xFFFFFFFFFFFFFC00000000000000000000000000000000000000000000000000000000000000000000000000000000000000000000000000000000000000000000000000000000000000000000000000000000000000000000000000000000000000000000000000000000000000000000000000000000000000000000000000

  /** The default limit on the decimal digits of an int that str() converts
      (sys.int_info.default_max_str_digits). */
  const IntMaxStrDigits: nat := 4300

  const OverflowMessage: string := "int too large to convert to float"
  const StrDigitsMessage: string :=
    "Exceeds the limit (4300 digits) for integer string conversion; use sys.set_int_max_str_digits() to increase the limit"

  function Abs(n: int): nat
  {
    if n < 0 then -n else n
  }

  function Pow10(e: nat): (r: nat)
    ensures 1 <= r
  {
    if e == 0 then 1 else 10 * Pow10(e - 1)
  }

  lemma {:induction false} Pow10Monotone(a: nat, b: nat)
    requires a <= b
    ensures Pow10(a) <= Pow10(b)
    decreases b - a
  {
    if a < b {
      Pow10Monotone(a, b - 1);
    }
  }

  /** The number of decimal digits of `n`, as str() writes it. */
  function DecimalDigits(n: nat): (r: nat)
    ensures 1 <= r
    ensures n < Pow10(r)
    ensures 1 < r ==> Pow10(r - 1) <= n
  {
    if n < 10 then 1 else 1 + DecimalDigits(n / 10)
  }

  /** Whether str() (or an f-string field without a format spec) fails on a
      value: only an int with more than IntMaxStrDigits digits does. */
  function StrFailure(v: Value): (r: Option<PyError>)
    ensures r.Some? <==> v.VInt? && Pow10(IntMaxStrDigits) <= Abs(v.i)
    ensures r.Some? ==> r == Some(ValueError(StrDigitsMessage))
  {
    if v.VInt? && DecimalDigits(Abs(v.i)) > IntMaxStrDigits then
      Pow10Monotone(IntMaxStrDigits, DecimalDigits(Abs(v.i)) - 1);
      Some(ValueError(StrDigitsMessage))
    else if v.VInt? then
      Pow10Monotone(DecimalDigits(Abs(v.i)), IntMaxStrDigits);
      None
    else
      None
  }

  /** Whether format_price fails on a price: with the default currency it
      formats the price with two decimals. An int is first converted to a
      double, which overflows for a magnitude of FloatOverflowBound or more;
      a string raises ValueError and None raises TypeError. The text it
      produces is not modelled; the result is the exception, if any. */
  function FormatPriceFailure(price: Value): (r: Option<PyError>)
    ensures r == None <==> price.VInt? && Abs(price.i) < FloatOverflowBound
    ensures price.VInt? && FloatOverflowBound <= Abs(price.i) ==>
              r == Some(OverflowError(OverflowMessage))
    ensures price.VStr? ==> r == Some(ValueError("Unknown format code 'f' for object of type 'str'"))
    ensures price == VNone ==> r == Some(TypeError)
  {
    match price
    case VInt(n) =>
      if n <= -FloatOverflowBound || FloatOverflowBound <= n then Some(OverflowError(OverflowMessage))
      else None
    case VStr(_) => Some(ValueError("Unknown format code 'f' for object of type 'str'"))
    case VNone => Some(TypeError)
  }

  /** Whether product_to_string fails on a stored record: the f-string
      converts the name and then the price with str(). */
  function ToStringFailure(rec: Record): (r: Option<PyError>)
    requires "name" in rec && "price" in rec
    ensures r == None <==> StrFailure(rec["name"]) == None && StrFailure(rec["price"]) == None
    ensures StrFailure(rec["name"]).Some? ==> r == StrFailure(rec["name"])
  {
    if StrFailure(rec["name"]).Some? then StrFailure(rec["name"]) else StrFailure(rec["price"])
  }

  /** The integer boundaries of the two renderings: format_price fails from
      a magnitude of FloatOverflowBound, str() from IntMaxStrDigits + 1
      digits, on either sign. */
  lemma RenderingLimits()
    ensures FormatPriceFailure(VInt(FloatOverflowBound - 1)) == None
    ensures FormatPriceFailure(VInt(-FloatOverflowBound + 1)) == None
    ensures FormatPriceFailure(VInt(FloatOverflowBound)) == Some(OverflowError(OverflowMessage))
    ensures FormatPriceFailure(VInt(-FloatOverflowBound)) == Some(OverflowError(OverflowMessage))
    ensures StrFailure(VInt(Pow10(IntMaxStrDigits) - 1)) == None
    ensures StrFailure(VInt(-(Pow10(IntMaxStrDigits) as int))) == Some(ValueError(StrDigitsMessage))
  {
  }

  /** What call_product returns. The strings the 'info' and 'price' actions
      render are not modelled: when they succeed those paths return Rendered,
      and when the rendering raises they return that exception. */
  datatype CallResult = NoResult | Deleted(removed: bool) | Rendered | Failed(error: PyError)

  /** The result of a rendering action, from the exception it raises, if any. */
  function RenderResult(failure: Option<PyError>): (r: CallResult)
    ensures r == Rendered <==> failure == None
    ensures failure.Some? ==> r == Failed(failure.value)
  {
    match failure
    case None => Rendered
    case Some(e) => Failed(e)
  }

  /** The module-level `product_cache` dict and the functions over it. */
  class ProductCache {
    var cache: map<string, Record>

    /** Every stored record still has the keys init_product gave it. */
    ghost predicate Valid()
      reads this
    {
      forall productId :: productId in cache ==> RequiredKeys <= cache[productId].Keys
    }

    constructor ()
      ensures Valid() && cache == map[]
    {
      cache := map[];
    }

    /** get_product: the stored record, or None for an unknown id. */
    function GetProduct(productId: string): (r: Option<Record>)
      reads this
      ensures r.Some? <==> productId in cache
      ensures r.Some? ==> r.value == cache[productId]
    {
      if productId in cache then Some(cache[productId]) else None
    }

    /** count_products: the number of ids in the store. */
    function CountProducts(): (n: nat)
      reads this
      ensures n == |cache.Keys|
      ensures n == 0 <==> cache == map[]
    {
      |cache|
    }

    /** contains_product: whether get_product finds a record. */
    function ContainsProduct(productId: string): (b: bool)
      reads this
      ensures b <==> GetProduct(productId).Some?
    {
      productId in cache
    }

    /** get_product_item: the value under `key` of a stored record, None when
        the product or the key is missing. */
    function GetProductItem(productId: string, key: string): (v: Value)
      reads this
      ensures productId in cache && key in cache[productId] ==> v == cache[productId][key]
      ensures productId !in cache || key !in cache[productId] ==> v == VNone
    {
      var p := GetProduct(productId);
      if Present(p) && key in p.value then p.value[key] else VNone
    }

    /** compare_products: the price difference when both products exist, 0
        when either is missing. Reading a missing 'price' raises KeyError and
        subtracting a non-integer price raises TypeError. */
    function CompareProducts(productId1: string, productId2: string): (r: Outcome<int>)
      reads this
      ensures productId1 !in cache || productId2 !in cache ==> r == Ok(0)
      ensures productId1 in cache && productId2 in cache &&
              "price" in cache[productId1] && "price" in cache[productId2] &&
              cache[productId1]["price"].VInt? && cache[productId2]["price"].VInt? ==>
                r == Ok(cache[productId1]["price"].i - cache[productId2]["price"].i)
      ensures r.Raised? ==> productId1 in cache && productId2 in cache
    {
      var p1 := GetProduct(productId1);
      var p2 := GetProduct(productId2);
      if Present(p1) && Present(p2) then
        if "price" !in p1.value || "price" !in p2.value then Raised(KeyError)
        else match (p1.value["price"], p2.value["price"])
          case (VInt(a), VInt(b)) => Ok(a - b)
          case _ => Raised(TypeError)
      else
        Ok(0)
    }

    /** products_equal: structural equality of the two lookups, so two
        missing ids are equal. */
    function ProductsEqual(productId1: string, productId2: string): (b: bool)
      reads this
      ensures productId1 !in cache && productId2 !in cache ==> b
      ensures b && productId1 in cache ==> productId2 in cache && cache[productId1] == cache[productId2]
      ensures productId1 in cache && productId2 in cache && cache[productId1] == cache[productId2] ==> b
      ensures (productId1 in cache) != (productId2 in cache) ==> !b
    {
      GetProduct(productId1) == GetProduct(productId2)
    }

    /** product_hash: the hash of the pair (id, name) of a stored record, 0
        for an unknown id. Python's built-in hash is the parameter `hash`. */
    function ProductHash(productId: string, hash: (Value, Value) -> int): (r: Outcome<int>)
      reads this
      ensures productId !in cache ==> r == Ok(0)
      ensures productId in cache && "id" in cache[productId] && "name" in cache[productId] ==>
                r == Ok(hash(cache[productId]["id"], cache[productId]["name"]))
    {
      var p := GetProduct(productId);
      if Present(p) then
        if "id" in p.value && "name" in p.value then Ok(hash(p.value["id"], p.value["name"]))
        else Raised(KeyError)
      else
        Ok(0)
    }

    /** init_product: stores a fresh record under the id, replacing any
        earlier one, and returns it. */
    method InitProduct(productId: string, name: string, price: int) returns (r: Record)
      requires Valid()
      modifies this
      ensures Valid()
      ensures r.Keys == RequiredKeys
      ensures r["id"] == VStr(productId) && r["name"] == VStr(name)
      ensures r["price"] == VInt(price) && r["currency"] == VStr(DefaultCurrency)
      ensures cache == old(cache)[productId := r]
      ensures GetProduct(productId) == Some(r)
      ensures CountProducts() == old(CountProducts()) + (if productId in old(cache) then 0 else 1)
    {
      r := NewRecord(productId, name, price);
      cache := cache[productId := r];
    }

    /** create_product: initialises the product under the generated id
        `productId` and, when the category is truthy, adds it to the stored
        record, which is the record returned. */
    method CreateProduct(productId: string, name: string, price: int, category: Value) returns (r: Record)
      requires Valid()
      modifies this
      ensures Valid()
      ensures cache == old(cache)[productId := r]
      ensures GetProduct(productId) == Some(r)
      ensures r.Keys == RequiredKeys + (if Truthy(category) then {"category"} else {})
      ensures r["name"] == VStr(name) && r["price"] == VInt(price)
      ensures r["id"] == VStr(productId) && r["currency"] == VStr(DefaultCurrency)
      ensures Truthy(category) ==> r["category"] == category
    {
      r := InitProduct(productId, name, price);
      if Truthy(category) {
        ghost var initialised := r;
        CategoryKeepsRequiredKeys(r, category);
        r := r["category" := category];
        cache := cache[productId := r];
        OverwriteTwice(old(cache), productId, initialised, r);
      }
    }

    /** update_product: merges the keyword arguments into the stored record
        in place (their values win) and returns it; an unknown id gives None
        and no change. A keyword named `product_id` collides with the
        positional parameter, so Python raises TypeError when binding the
        call, before the body runs. */
    method UpdateProduct(productId: string, kwargs: Record) returns (r: Outcome<Option<Record>>)
      requires Valid()
      modifies this
      ensures Valid()
      ensures "product_id" in kwargs ==> r == Raised(TypeError) && cache == old(cache)
      ensures "product_id" !in kwargs && productId !in old(cache) ==>
                r == Ok(None) && cache == old(cache)
      ensures "product_id" !in kwargs && productId in old(cache) ==>
                cache == old(cache)[productId := old(cache)[productId] + kwargs] &&
                r == Ok(Some(cache[productId]))
      ensures "product_id" !in kwargs && productId in old(cache) ==>
                cache[productId].Keys == old(cache)[productId].Keys + kwargs.Keys &&
                (forall k :: k in kwargs ==> cache[productId][k] == kwargs[k]) &&
                (forall k :: k in old(cache)[productId] && k !in kwargs ==>
                   cache[productId][k] == old(cache)[productId][k])
    {
      if "product_id" in kwargs {
        return Raised(TypeError);
      }
      var p := GetProduct(productId);
      if Present(p) {
        cache := cache[productId := p.value + kwargs];
        r := Ok(Some(cache[productId]));
      } else {
        r := Ok(p);
      }
    }

    /** delete_product: removes the id and reports whether it was there. */
    method DeleteProduct(productId: string) returns (removed: bool)
      requires Valid()
      modifies this
      ensures Valid()
      ensures removed == (productId in old(cache))
      ensures cache == old(cache) - {productId}
      ensures !ContainsProduct(productId)
      ensures CountProducts() == old(CountProducts()) - (if removed then 1 else 0)
    {
      if productId in cache {
        cache := cache - {productId};
        removed := true;
      } else {
        removed := false;
      }
    }

    /** set_product_item: sets one key of a stored record in place; an unknown
        id changes nothing. */
    method SetProductItem(productId: string, key: string, value: Value)
      requires Valid()
      modifies this
      ensures Valid()
      ensures cache == if productId in old(cache)
                       then old(cache)[productId := old(cache)[productId][key := value]]
                       else old(cache)
      ensures GetProductItem(productId, key) == if productId in old(cache) then value else VNone
    {
      var p := GetProduct(productId);
      if Present(p) {
        cache := cache[productId := p.value[key := value]];
      }
    }

    /** call_product: for a stored product and a known action, runs the
        action; 'delete' deletes the id held in the record's 'id' field. An
        unknown id or action gives None. */
    method CallProduct(productId: string, action: string) returns (r: CallResult)
      requires Valid()
      modifies this
      ensures Valid()
      ensures productId !in old(cache) || action !in {"info", "price", "delete"} ==>
                r == NoResult && cache == old(cache)
      ensures productId in old(cache) && action == "info" ==>
                cache == old(cache) &&
                match old(cache)[productId]["id"]
                case VStr(s) =>
                  r == if s in old(cache) then RenderResult(ToStringFailure(old(cache)[s])) else Rendered
                case _ => r == Rendered
      ensures productId in old(cache) && action == "price" ==>
                cache == old(cache) && r == RenderResult(FormatPriceFailure(old(cache)[productId]["price"]))
      ensures productId in old(cache) && action == "delete" ==>
                match old(cache)[productId]["id"]
                case VStr(s) => r == Deleted(s in old(cache)) && cache == old(cache) - {s}
                case _ => r == Deleted(false) && cache == old(cache)
      ensures productId in old(cache) && action == "delete" &&
              old(cache)[productId]["id"] == VStr(productId) ==>
                r == Deleted(true) && cache == old(cache) - {productId}
    {
      var p := GetProduct(productId);
      if Present(p) && action in {"info", "price", "delete"} {
        if action == "delete" {
          match p.value["id"]
          case VStr(s) =>
            var removed := DeleteProduct(s);
            r := Deleted(removed);
          case _ =>
            r := Deleted(false);
        } else if action == "price" {
          r := RenderResult(FormatPriceFailure(p.value["price"]));
        } else {
          match p.value["id"]
          case VStr(s) =>
            var q := GetProduct(s);
            r := if Present(q) then RenderResult(ToStringFailure(q.value)) else Rendered;
          case _ =>
            r := Rendered;
        }
      } else {
        r := NoResult;
      }
    }
  }

  /** Deleting the same id twice: the first call reports whether it was
      stored, the second always reports False. */
  method DeleteTwice(store: ProductCache, productId: string) returns (first: bool, second: bool)
    requires store.Valid()
    modifies store
    ensures store.Valid()
    ensures first == (productId in old(store.cache)) && !second
    ensures store.cache == old(store.cache) - {productId}
  {
    first := store.DeleteProduct(productId);
    second := store.DeleteProduct(productId);
  }

  /** In a valid store every stored product is truthy and has a price, an id
      and a name, so the KeyError branches are never taken. */
  lemma ValidStoreRaisesNoKeyError(store: ProductCache, productId1: string, productId2: string,
                                   hash: (Value, Value) -> int)
    requires store.Valid()
    ensures store.CompareProducts(productId1, productId2) != Raised(KeyError)
    ensures store.ProductHash(productId1, hash).Ok?
  {
  }

  /** compare_products is antisymmetric. */
  lemma CompareAntisymmetric(store: ProductCache, productId1: string, productId2: string)
    ensures store.CompareProducts(productId1, productId2).Ok? <==>
            store.CompareProducts(productId2, productId1).Ok?
    ensures store.CompareProducts(productId1, productId2).Ok? ==>
            store.CompareProducts(productId1, productId2).value ==
            -store.CompareProducts(productId2, productId1).value
  {
  }

  /** product_hash looks only at the id and name fields: two stored products
      that agree on those hash alike, whatever their prices. */
  lemma HashIgnoresPrice(store: ProductCache, productId1: string, productId2: string,
                         hash: (Value, Value) -> int)
    requires productId1 in store.cache && productId2 in store.cache
    requires "id" in store.cache[productId1] && "id" in store.cache[productId2]
    requires "name" in store.cache[productId1] && "name" in store.cache[productId2]
    requires store.cache[productId1]["id"] == store.cache[productId2]["id"]
    requires store.cache[productId1]["name"] == store.cache[productId2]["name"]
    ensures store.ProductHash(productId1, hash) == store.ProductHash(productId2, hash)
  {
  }
}

=== FILE: py_values.dfy ===
/** Python values as the two sample modules use them: dictionaries keyed by
    strings whose values are None, integers or strings, Python's truthiness
    test, and exceptions as an error outcome. */
module PyValues {

  /** A value stored in a record (a Python dict value). Floats and booleans
      are not part of this model. */
  datatype Value = VNone | VInt(i: int) | VStr(s: string)

  /** A Python dict with string keys. */
  type Record = map<string, Value>

  datatype Option<+T> = None | Some(value: T)

  /** The exceptions the modelled code can raise. */
  datatype PyError = ValueError(message: string) | TypeError | KeyError | OverflowError(message: string)

  /** A call either returns a value or raises. */
  datatype Outcome<+T> = Ok(value: T) | Raised(error: PyError)

  /** Python's `if v:` on a value: None, 0 and "" are false. */
  predicate Truthy(v: Value)
  {
    match v
    case VNone => false
    case VInt(n) => n != 0
    case VStr(s) => s != ""
  }

  /** Python's `if d:` on a lookup that yields a dict or None: None and the
      empty dict are false. */
  predicate Present(p: Option<Record>)
  {
    p.Some? && p.value != map[]
  }
}

=== FILE: user_management.dfy ===
/** The validators and record-merging functions of
    tests/sample_scripts/user_management.py. The mock database calls only
    print and return literals; what is modelled of them is the record each
    returns. */
module UserManagement {
  import opened PyValues

  const UsernameError: string := "Username must be at least 3 characters"
  const EmailError: string := "Invalid email address"

  // ---------------------------------------------------------------------
  // validate_email: a local run, '@', a domain run, '.', two or more letters
  // ---------------------------------------------------------------------

  /** `[a-zA-Z]` */
  predicate IsLetter(c: char)
  {
    'a' <= c <= 'z' || 'A' <= c <= 'Z'
  }

  predicate IsDigit(c: char)
  {
    '0' <= c <= '9'
  }

  /** `[a-zA-Z0-9._%+-]`, the characters of the part before the '@'. */
  predicate IsLocalChar(c: char)
  {
    IsLetter(c) || IsDigit(c) || c in {'.', '_', '%', '+', '-'}
  }

  /** `[a-zA-Z0-9.-]`, the characters of the domain. */
  predicate IsDomainChar(c: char)
  {
    IsLetter(c) || IsDigit(c) || c == '.' || c == '-'
  }

  predicate AllLocal(s: string)
  {
    forall c :: c in s ==> IsLocalChar(c)
  }

  predicate AllDomain(s: string)
  {
    forall c :: c in s ==> IsDomainChar(c)
  }

  predicate AllLetters(s: string)
  {
    forall c :: c in s ==> IsLetter(c)
  }

  /** `[a-zA-Z]{2,}` up to the end of `t`, starting at `k`. */
  predicate TopLevelFrom(t: string, k: nat)
  {
    k + 2 <= |t| && AllLetters(t[k..])
  }

  /** Inside `[a-zA-Z0-9.-]+` after at least one character has been taken
      at position `k`: either the `\.` and the top-level part follow here,
      or the run takes one more character. */
  predicate DomainRest(t: string, k: nat)
    decreases |t| - k
  {
    k < |t| &&
    ((t[k] == '.' && TopLevelFrom(t, k + 1)) || (IsDomainChar(t[k]) && DomainRest(t, k + 1)))
  }

  /** `[a-zA-Z0-9.-]+\.[a-zA-Z]{2,}` from position `k` to the end of `t`. */
  predicate DomainFrom(t: string, k: nat)
  {
    k < |t| && IsDomainChar(t[k]) && DomainRest(t, k + 1)
  }

  /** Inside `[a-zA-Z0-9._%+-]+` after at least one character: either the
      '@' and the domain follow here, or the run takes one more character. */
  predicate LocalRest(t: string, k: nat)
    decreases |t| - k
  {
    k < |t| &&
    ((t[k] == '@' && DomainFrom(t, k + 1)) || (IsLocalChar(t[k]) && LocalRest(t, k + 1)))
  }

  /** The whole pattern matches all of `t`. */
  predicate FullMatch(t: string)
  {
    0 < |t| && IsLocalChar(t[0]) && LocalRest(t, 1)
  }

  /** `t[k..]` is `L@D.T` with the '@' at `at` and the '.' before the
      top-level part at `dot`: L is a run of local characters (empty when
      `at == k`), D a non-empty run of domain characters, and T at least two
      letters. */
  ghost predicate SplitFrom(t: string, k: nat, at: nat, dot: nat)
  {
    k <= at && at + 1 < dot && dot + 3 <= |t| &&
    t[at] == '@' && t[dot] == '.' &&
    AllLocal(t[k..at]) && AllDomain(t[at + 1..dot]) && AllLetters(t[dot + 1..])
  }

  /** The shape the pattern describes: `L@D.T` with L non-empty. Since D
      may itself contain dots, the '.' before T is any dot followed by
      letters only. */
  ghost predicate EmailForm(t: string)
  {
    exists at: nat, dot: nat :: 0 < at && SplitFrom(t, 0, at, dot)
  }

  /** `t[k..]` is `D.T` with the '.' at `dot` and D possibly empty. */
  ghost predicate DotFrom(t: string, k: nat, dot: nat)
  {
    k <= dot && dot + 3 <= |t| && t[dot] == '.' &&
    AllDomain(t[k..dot]) && AllLetters(t[dot + 1..])
  }

  lemma {:induction false} DomainRestSound(t: string, k: nat)
    requires DomainRest(t, k)
    ensures exists dot: nat :: DotFrom(t, k, dot)
    decreases |t| - k
  {
    if t[k] == '.' && TopLevelFrom(t, k + 1) {
      assert t[k..k] == [];
      assert DotFrom(t, k, k);
    } else {
      DomainRestSound(t, k + 1);
      var dot: nat :| DotFrom(t, k + 1, dot);
      assert t[k..dot] == [t[k]] + t[k + 1..dot];
      assert DotFrom(t, k, dot);
    }
  }

  lemma {:induction false} DomainRestComplete(t: string, k: nat, dot: nat)
    requires DotFrom(t, k, dot)
    ensures DomainRest(t, k)
    decreases dot - k
  {
    if k < dot {
      assert t[k] in t[k..dot];
      assert t[k + 1..dot] == t[k..dot][1..];
      DomainRestComplete(t, k + 1, dot);
    }
  }

  lemma {:induction false} LocalRestSound(t: string, k: nat)
    requires LocalRest(t, k)
    ensures exists at: nat, dot: nat :: SplitFrom(t, k, at, dot)
    decreases |t| - k
  {
    if t[k] == '@' && DomainFrom(t, k + 1) {
      DomainRestSound(t, k + 2);
      var dot: nat :| DotFrom(t, k + 2, dot);
      assert t[k + 1..dot] == [t[k + 1]] + t[k + 2..dot];
      assert t[k..k] == [];
      assert SplitFrom(t, k, k, dot);
    } else {
      LocalRestSound(t, k + 1);
      var at: nat, dot: nat :| SplitFrom(t, k + 1, at, dot);
      assert t[k..at] == [t[k]] + t[k + 1..at];
      assert SplitFrom(t, k, at, dot);
    }
  }

  lemma {:induction false} LocalRestComplete(t: string, k: nat, at: nat, dot: nat)
    requires SplitFrom(t, k, at, dot)
    ensures LocalRest(t, k)
    decreases at - k
  {
    if k < at {
      assert t[k] in t[k..at];
      assert t[k + 1..at] == t[k..at][1..];
      LocalRestComplete(t, k + 1, at, dot);
    } else {
      assert t[at + 1] in t[at + 1..dot];
      assert t[at + 2..dot] == t[at + 1..dot][1..];
      DomainRestComplete(t, at + 2, dot);
    }
  }

  /** The recursive matcher accepts exactly the strings of the form L@D.T. */
  lemma FullMatchIsEmailForm(t: string)
    ensures FullMatch(t) <==> EmailForm(t)
  {
    if FullMatch(t) {
      LocalRestSound(t, 1);
      var at: nat, dot: nat :| SplitFrom(t, 1, at, dot);
      assert t[..at] == [t[0]] + t[1..at];
      assert SplitFrom(t, 0, at, dot);
    }
    if EmailForm(t) {
      var at: nat, dot: nat :| 0 < at && SplitFrom(t, 0, at, dot);
      assert t[0] in t[0..at];
      assert t[1..at] == t[0..at][1..];
      LocalRestComplete(t, 1, at, dot);
    }
  }

  /** validate_email: `re.match` anchors at the start, and Python's `$`
      matches at the end of the string or just before a final newline, so
      the accepted strings are exactly L@D.T, optionally followed by one
      newline. */
  predicate ValidateEmail(email: string): (ok: bool)
    ensures ok <==> EmailForm(email) ||
                    (0 < |email| && email[|email| - 1] == '\n' && EmailForm(email[..|email| - 1]))
  {
    FullMatchIsEmailForm(email);
    FullMatchIsEmailForm(if 0 < |email| then email[..|email| - 1] else email);
    FullMatch(email) ||
    (0 < |email| && email[|email| - 1] == '\n' && FullMatch(email[..|email| - 1]))
  }

  /** A string without '@' is rejected. */
  lemma NoAtRejected(email: string)
    requires '@' !in email
    ensures !ValidateEmail(email)
  {
  }

  /** A string that starts with '@' (an empty local part) is rejected. */
  lemma EmptyLocalPartRejected(email: string)
    requires 0 < |email| && email[0] == '@'
    ensures !ValidateEmail(email)
  {
  }

  /** `t` ends in a '.' followed by at least two letters. */
  ghost predicate EndsWithTopLevel(t: string)
  {
    exists dot: nat :: dot + 3 <= |t| && t[dot] == '.' && AllLetters(t[dot + 1..])
  }

  /** A string that does not end (before an optional final newline) in a
      '.' and two or more letters is rejected. */
  lemma NoTopLevelRejected(email: string)
    requires !EndsWithTopLevel(email)
    requires 0 < |email| && email[|email| - 1] == '\n' ==> !EndsWithTopLevel(email[..|email| - 1])
    ensures !ValidateEmail(email)
  {
  }

  /** The trailing-newline quirk of `$`: "a@b.cc\n" is accepted, as is
      "a@b.cc". */
  lemma TrailingNewlineAccepted()
    ensures ValidateEmail("a@b.cc\n")
    ensures ValidateEmail("a@b.cc")
  {
  }

  // ---------------------------------------------------------------------
  // validate_user_data and the record merges
  // ---------------------------------------------------------------------

  /** The username check: a missing or empty username, or one shorter than
      three characters, fails. */
  predicate UsernameOk(username: Option<string>)
  {
    username.Some? && |username.value| >= 3
  }

  /** validate_user_data: the username is checked before the email; on
      success the result holds exactly the two inputs. */
  function ValidateUserData(username: Option<string>, email: string): (r: Outcome<Record>)
    ensures r.Ok? <==> UsernameOk(username) && ValidateEmail(email)
    ensures !UsernameOk(username) ==> r == Raised(ValueError(UsernameError))
    ensures UsernameOk(username) && !ValidateEmail(email) ==> r == Raised(ValueError(EmailError))
    ensures r.Ok? ==> r.value.Keys == {"username", "email"} &&
                      r.value["username"] == VStr(username.value) &&
                      r.value["email"] == VStr(email)
  {
    if username == None || username.value == "" || |username.value| < 3 then
      Raised(ValueError(UsernameError))
    else if !ValidateEmail(email) then
      Raised(ValueError(EmailError))
    else
      Ok(map["username" := VStr(username.value), "email" := VStr(email)])
  }

  /** The username boundary: three characters pass the username check and
      two do not, whatever the email. */
  lemma UsernameBoundary(email: string)
    ensures ValidateUserData(Some("abc"), email).Ok? <==> ValidateEmail(email)
    ensures ValidateUserData(Some("ab"), email) == Raised(ValueError(UsernameError))
    ensures ValidateUserData(None, email) == Raised(ValueError(UsernameError))
    ensures ValidateUserData(Some(""), email) == Raised(ValueError(UsernameError))
  {
  }

  /** save_to_database: the saved record is `data` with an "id" of 1 added
      only when `data` has none. */
  function SaveToDatabase(data: Record): (r: Record)
    ensures r.Keys == data.Keys + {"id"}
    ensures forall k :: k in data ==> r[k] == data[k]
    ensures "id" !in data ==> r["id"] == VInt(1)
  {
    map["id" := VInt(1)] + data
  }

  /** update_in_database: `data` with "id" forced to `recordId`. */
  function UpdateInDatabase(recordId: Value, data: Record): (r: Record)
    ensures r.Keys == data.Keys + {"id"}
    ensures r["id"] == recordId
    ensures forall k :: k in data && k != "id" ==> r[k] == data[k]
  {
    data + map["id" := recordId]
  }

  /** create_user: validation comes first, so invalid input raises its
      error and nothing is saved; otherwise the saved record holds the
      username, the email, the hash of the password (SHA-256 is the parameter
      `hashPassword`) and the id 1. */
  function CreateUser(username: Option<string>, email: string, password: string,
                      hashPassword: string -> string): (r: Outcome<Record>)
    ensures ValidateUserData(username, email).Raised? ==> r == ValidateUserData(username, email)
    ensures r.Ok? <==> UsernameOk(username) && ValidateEmail(email)
    ensures r.Ok? ==> r.value == map["id" := VInt(1), "username" := VStr(username.value),
                                     "email" := VStr(email),
                                     "password" := VStr(hashPassword(password))]
  {
    match ValidateUserData(username, email)
    case Raised(e) => Raised(e)
    case Ok(userData) =>
      var hashed := hashPassword(password);
      Ok(SaveToDatabase(userData["password" := VStr(hashed)]))
  }
}
